=== FILE: README.md ===
# Verified model of ActiveMQ's `MemoryTransactionStore`

This Dafny project models the transaction-coordination engine of ActiveMQ's
in-memory `MemoryTransactionStore`. The store makes non-transactional message
stores take part in local and two-phase (XA) transactions. It keeps a buffer
(`Tx`) of pending add-commands and remove-commands per transaction id. It holds
those buffers in two maps, in-flight and prepared. It moves buffers between the
maps on `prepare`, `commit`, `rollback`, `recover` and `delete`. On commit it
replays a buffer inside one persistence-adapter transaction. Proxies around the
underlying stores intercept every add, remove and acknowledge. Each call is
dropped (while recovery runs), buffered (when transactional) or delegated with
a null context (otherwise).

The model is functional. The store is an immutable record
`Store(inflight, prepared, doingRecover)`, and every operation is a pure
function. An operation returns the new state, the trace of calls it made into
code it does not own, and how it ended (`Ok` or `Raised(call)`). That code is
the adapter's begin, commit and rollback, the store primitives, the commit
hooks and the recovery listener. Which of those calls throw is an oracle,
`World = Event -> bool`. A call that throws still appears in the trace. Only the
adapter rollback it triggers during a replay can follow it. Messages, acknowledgements, destinations and transaction ids are
opaque types. Only the optional transaction id of a message or an
acknowledgement is visible.

Modules:
- `Values` (values.dfy): the opaque values.
- `Effects` (effects.dfy): the trace, the failure oracle, and running calls in order until one throws.
- `Buffer` (buffer.dfy): `Tx`, its projections and its replay.
- `Registry` (registry.dfy): the two maps, `getTx`, `prepare`, `rollback` and `delete`.
- `Coordinator` (coordinator.dfy): `commit` and `recover`.
- `Decorator` (decorator.dfy): `addMessage`, `removeMessage` and `acknowledge`.
- `Proxy` (proxy.dfy): both `proxy` overloads.
- `Lifecycle` (lifecycle.dfy): properties spanning several operations.

Behaviour of the code that a reader might not expect, which the model follows:
- A late append to a finished transaction id is not an error. `getTx`
  silently installs a fresh in-flight buffer (`Lifecycle.LateAppendReopens`).
- The two maps are not kept disjoint. `getTx` looks only at the in-flight map,
  so a prepared id can gain a second, in-flight buffer
  (`Lifecycle.AppendToPreparedOverlaps`). Only the weaker statement holds:
  operations other than the interceptions keep the maps disjoint when they
  already were.
- `recover` empties the in-flight map before it sets the recovery flag, not after.
- `recover` does not skip prepared ids that are not XA ids. For such an id the
  `(XATransactionId)` cast throws; see "Left out".
- `getTx` is not atomic. The model is sequential, so no first-writer-wins
  claim is made.

## Model

| member | source | states |
|---|---|---|
| Effects.RunInOrder | activemq-core/src/main/java/org/apache/activemq/store/memory/MemoryTransactionStore.java:96-104 | Calls made one after another stop at the first that throws. The run is normal exactly when no call throws. Otherwise the calls made are the prefix up to and including that first thrower, and its exception is the result. |
| Effects.RunInOrderAppend | activemq-core/src/main/java/org/apache/activemq/store/memory/MemoryTransactionStore.java:95-104 | Running `a + b` is running `a`, then running `b` only when `a` threw nothing. This lets the add loop followed by the remove loop be read as one loop. |
| Buffer.Messages | activemq-core/src/main/java/org/apache/activemq/store/memory/MemoryTransactionStore.java:67-75 | `getMessages` has one entry per add-command, and entry i is the message of the i-th add-command. |
| Buffer.Acks | activemq-core/src/main/java/org/apache/activemq/store/memory/MemoryTransactionStore.java:77-85 | `getAcks` has one entry per remove-command, and entry i is the acknowledgement of the i-th remove-command. |
| Buffer.MessagesAppend | activemq-core/src/main/java/org/apache/activemq/store/memory/MemoryTransactionStore.java:59-61 | Appending an add-command appends its message to `getMessages` and leaves `getAcks` unchanged. |
| Buffer.AcksAppend | activemq-core/src/main/java/org/apache/activemq/store/memory/MemoryTransactionStore.java:63-65 | Appending a remove-command appends its acknowledgement to `getAcks` and leaves `getMessages` unchanged. |
| Buffer.Commit | activemq-core/src/main/java/org/apache/activemq/store/memory/MemoryTransactionStore.java:90-111 | A replay always starts with the adapter's begin. A begin that throws sits outside the `try`: its exception ends the replay at once, with no command run and no rollback. A replay returns normally only after the adapter's commit, and it never both rolls back and commits. |
| Buffer.CommitRunsCalls | activemq-core/src/main/java/org/apache/activemq/store/memory/MemoryTransactionStore.java:95-110 | Once begin succeeds, the two loops of `Tx.commit` behave as one run over the add-commands followed by the remove-commands. A throw leads to rollback; otherwise the adapter commits. |
| Buffer.ReplayOrder | activemq-core/src/main/java/org/apache/activemq/store/memory/MemoryTransactionStore.java:90-111 | When no command throws, the trace is begin, then every add-command in append order, then every remove-command in append order, then commit. Each command runs exactly once, in the replay's context. The replay returns normally unless the adapter's commit throws, and then that exception is the result. |
| Buffer.ReplayFailure | activemq-core/src/main/java/org/apache/activemq/store/memory/MemoryTransactionStore.java:96-110 | When command k is the first to throw, the commands after k never run and the adapter rolls back. Commit is never called. The command's exception reaches the caller, or the rollback's exception if the rollback itself throws. |
| Registry.GetTx | activemq-core/src/main/java/org/apache/activemq/store/memory/MemoryTransactionStore.java:220-227 | `getTx` returns the id's in-flight buffer, which afterwards is in the map. An existing buffer leaves the state unchanged. A missing one is replaced by an empty buffer. Other ids, the prepared map and the flag are untouched. |
| Registry.EnlistAdd | activemq-core/src/main/java/org/apache/activemq/store/memory/MemoryTransactionStore.java:292-302 | `getTx(id).add(cmd)` places the add-command at the end of the adds of `getTx`'s buffer. Its removes and every other entry are unchanged. |
| Registry.EnlistRemove | activemq-core/src/main/java/org/apache/activemq/store/memory/MemoryTransactionStore.java:318-327 | `getTx(id).add(cmd)` places the remove-command at the end of the removes of `getTx`'s buffer. Its adds and every other entry are unchanged. |
| Registry.Prepare | activemq-core/src/main/java/org/apache/activemq/store/memory/MemoryTransactionStore.java:212-218 | `prepare` moves the in-flight buffer, unchanged, to the prepared map, and the id is no longer in flight. An id that is not in flight leaves the whole state unchanged. Other ids are untouched. |
| Registry.PrepareStatus | activemq-core/src/main/java/org/apache/activemq/store/memory/MemoryTransactionStore.java:212-218 | `prepare` takes in-flight to prepared. It leaves absent ids absent and prepared ids prepared. An id in both maps ends up only prepared. No other id's status changes. |
| Registry.PrepareKeepsDisjoint | activemq-core/src/main/java/org/apache/activemq/store/memory/MemoryTransactionStore.java:212-218 | `prepare` keeps the two maps disjoint if they were disjoint before. |
| Registry.Take | activemq-core/src/main/java/org/apache/activemq/store/memory/MemoryTransactionStore.java:233-238 | Commit removes the buffer from the prepared map when `wasPrepared`, and from the in-flight map otherwise. It yields the buffer exactly when the id was in that map. The other map is untouched. |
| Registry.Rollback | activemq-core/src/main/java/org/apache/activemq/store/memory/MemoryTransactionStore.java:255-258 | `rollback` leaves the id absent from both maps, for any id including unknown ones. Other entries and the flag are unchanged. |
| Registry.RollbackIdempotent | activemq-core/src/main/java/org/apache/activemq/store/memory/MemoryTransactionStore.java:255-258 | A second `rollback` of the same id changes nothing. `rollback` keeps disjoint maps disjoint. |
| Registry.Delete | activemq-core/src/main/java/org/apache/activemq/store/memory/MemoryTransactionStore.java:356-360 | After `delete`, every id is absent from both maps and `doingRecover` is false. |
| Coordinator.PostCommit | activemq-core/src/main/java/org/apache/activemq/store/memory/MemoryTransactionStore.java:247-249 | A non-null post-commit hook is the last call. Commit returns normally unless that hook throws. A null hook adds no call. |
| Coordinator.Commit | activemq-core/src/main/java/org/apache/activemq/store/memory/MemoryTransactionStore.java:229-250 | The pre-commit hook runs first; if it throws, the registry is untouched. Otherwise the buffer leaves its map before replay and stays out even if replay fails. With no buffer, only the hooks run and commit returns normally unless a hook throws. With a buffer, the calls are the pre-hook, the replay, and then the post-hook alone, which runs exactly when the replay succeeded. A failed replay's exception reaches the caller. After a successful replay, commit returns normally unless the post-hook throws. |
| Coordinator.ReportRun | activemq-core/src/main/java/org/apache/activemq/store/memory/MemoryTransactionStore.java:271-275 | Every listener call passes a prepared id with that buffer's `getMessages` and `getAcks`, and no id is reported twice. If the loop finishes, every prepared id has been reported. If the listener throws, the loop ends at that call and its exception is the result. |
| Coordinator.Recover | activemq-core/src/main/java/org/apache/activemq/store/memory/MemoryTransactionStore.java:266-279 | `recover` empties the in-flight map and leaves the prepared map unchanged. `doingRecover` is false on exit even when the listener throws. It reports each prepared buffer's messages and acks at most once. On a normal return every prepared id has been reported. A throwing listener ends the loop at the report it threw on, and its exception ends `recover`: the result is normal exactly when no report threw. |
| Decorator.AddMessage | activemq-core/src/main/java/org/apache/activemq/store/memory/MemoryTransactionStore.java:285-306 | During recovery an add is a no-op that returns normally. A transactional add appends one add-command to the end of `getTx`'s buffer, with no store call and nothing else changed. A non-transactional add makes exactly one `addMessage` on the store with a null context and leaves the registry untouched. |
| Decorator.RemoveMessage | activemq-core/src/main/java/org/apache/activemq/store/memory/MemoryTransactionStore.java:312-331 | A remove behaves like an add, with the three outcomes keyed on `ack.isInTransaction()`. A transactional remove appends one remove-command; otherwise exactly one null-context `removeMessage` is made. |
| Decorator.Acknowledge | activemq-core/src/main/java/org/apache/activemq/store/memory/MemoryTransactionStore.java:333-353 | A topic acknowledgement behaves the same way. It buffers a remove-command that keeps the client id, subscription name and message id. Otherwise it makes exactly one null-context `acknowledge`. |
| Proxy.QueueProxy | activemq-core/src/main/java/org/apache/activemq/store/memory/MemoryTransactionStore.java:130-164 | Every overridden method of the plain-store proxy hands the caller's own message or acknowledgement to `addMessage` or `removeMessage`, with the proxied store as destination, and behaves exactly as that interception does. It is dropped during recovery, buffered as one command at the end of the buffer, or sent as one null-context call to that store. Adds become adds and removes become removes. The async adds return the completed future exactly when they return normally. |
| Proxy.TopicProxy | activemq-core/src/main/java/org/apache/activemq/store/memory/MemoryTransactionStore.java:166-207 | The topic-store proxy routes the same way. `acknowledge` goes to the interception `acknowledge` with the caller's client id, subscription name, message id and acknowledgement, so it is buffered as an acknowledge command keeping all four, or sent as one acknowledge call. Every other remove variant becomes a plain remove of the caller's acknowledgement. |
| Lifecycle.BufferedInOrder | activemq-core/src/main/java/org/apache/activemq/store/memory/MemoryTransactionStore.java:285-331 | Any sequence of intercepted calls under one id outside recovery appends the adds and the removes to that id's in-flight buffer, each group in call order. Other ids and the prepared map are untouched. |
| Lifecycle.SessionCommit | activemq-core/src/main/java/org/apache/activemq/store/memory/MemoryTransactionStore.java:229-250 | A one-phase commit with neither hook, of a session buffered under a fresh id, replays exactly that session's adds and then its removes. It leaves the registry as it was before the session. With hooks, `Coordinator.Commit` states the same replay between them. |
| Lifecycle.AddsReplayBeforeRemoves | activemq-core/src/main/java/org/apache/activemq/store/memory/MemoryTransactionStore.java:90-111 | The calls add(M1), remove(A0), add(M2) under a fresh id, then a commit in which nothing throws, give the store add(M1), add(M2), remove(A0), in that order, inside one adapter transaction. |
| Lifecycle.PrepareThenCommit | activemq-core/src/main/java/org/apache/activemq/store/memory/MemoryTransactionStore.java:212-250 | For an id that is in flight and not prepared, `prepare` followed by `commit(wasPrepared=true)` behaves like `commit(wasPrepared=false)`. It makes the same calls and ends the same way. The registry ends the same unless the pre-hook throws. |
| Lifecycle.CommitFinalises | activemq-core/src/main/java/org/apache/activemq/store/memory/MemoryTransactionStore.java:233-238 | From disjoint maps, a commit past its pre-hook leaves the id absent and the maps disjoint. The exception is an id sitting in the other map than the one `wasPrepared` names, which keeps its status. |
| Lifecycle.CommitOfAbsentIdRunsOnlyHooks | activemq-core/src/main/java/org/apache/activemq/store/memory/MemoryTransactionStore.java:240-245 | Committing an id that neither map holds, such as one already committed, changes nothing. It only calls the hooks and returns normally unless a hook throws. |
| Lifecycle.LateAppendReopens | activemq-core/src/main/java/org/apache/activemq/store/memory/MemoryTransactionStore.java:220-227 | An add under an id after that id's commit is accepted. It creates a new in-flight buffer holding only that add. |
| Lifecycle.AppendToPreparedOverlaps | activemq-core/src/main/java/org/apache/activemq/store/memory/MemoryTransactionStore.java:220-227 | An add under a prepared id creates a second, in-flight buffer for that id, so the maps stop being disjoint. The prepared buffer is untouched. |
| Lifecycle.RecoveryModeIsInert | activemq-core/src/main/java/org/apache/activemq/store/memory/MemoryTransactionStore.java:285-289 | While `doingRecover` is set, every intercepted call leaves the registry unchanged, calls no store and returns normally. This holds for any sequence of calls. |
| Lifecycle.RecoverFate | activemq-core/src/main/java/org/apache/activemq/store/memory/MemoryTransactionStore.java:266-279 | After recovery an id that was only in flight is absent and was never reported. A prepared id is still prepared. The maps are disjoint. |
| Lifecycle.RecoverIsRepeatable | activemq-core/src/main/java/org/apache/activemq/store/memory/MemoryTransactionStore.java:271-275 | Recovery does not consume prepared buffers. Running it again from its own result, given the same listener behaviour, reports the same buffers and ends the same way. |

## Left out

- Concurrency. `ConcurrentHashMap` atomicity, the `synchronized` on `recover` and the visibility of the plain `doingRecover` field are not modelled; the model is sequential. `getTx`'s get-then-put is not atomic, so no first-writer-wins property is claimed.
- The pre- and post-commit hooks are modelled as calls that can only throw. Calls they make back into the store are not modelled. The pre-hook runs before the buffer is taken, so such a call (an append under the same id, or a `rollback`) could change what `commit` replays.
- Whether an external call throws depends only on the call itself (`World = Event -> bool`), so identical calls always throw alike. Failures that depend on earlier calls, such as a store rejecting the second of two identical adds in one replay, are not represented.
- Calls the listener makes back into the store while `recover` runs are not modelled as part of `recover`. What such calls do while the flag is set is stated separately by `Lifecycle.RecoveryModeIsInert`.
- The iteration order of the prepared map is a parameter `order` of `recover`. The only requirement is that it lists every prepared id exactly once.
- Unchecked exceptions. Only checked `IOException`s from store calls trigger the rollback in `Tx.commit`. A `RuntimeException` thrown by a store command would skip the rollback, and the model does not represent that path.
- Each replay opens a fresh `ConnectionContext`. The model has a single `ReplayContext` value and does not state that it is fresh.
- `ConnectionContext` arguments that callers pass to the proxies are ignored by the source, so they are not parameters here.
- Methods the proxies inherit without overriding go straight to the delegate (for example the queue-style async add on the topic proxy). Those classes are not part of this model.
- The state a freshly constructed store starts in is `Registry.Initial`; the constructor's persistence-adapter argument is not modelled, since the adapter appears only through trace events. `start` and `stop` (lines 260-264) are no-ops and are not modelled.
- The `(XATransactionId)` cast in `recover` (line 274) is not modelled: the model treats every prepared id as an XA id. A prepared id that is not an XA id makes the cast throw `ClassCastException` before the listener runs. The `finally` still lowers the flag, and the exception ends `recover`.
- The internals of the persistence adapter, the message stores and message or acknowledgement contents are outside this model. They appear only as trace events.
- Buffer.Commit: its own contract states the shape of the trace and the path where begin throws. Once begin succeeds, the order of the commands, their exactly-once execution and what happens when one throws are stated by `Buffer.ReplayOrder` and `Buffer.ReplayFailure`.

=== FILE: buffer.dfy ===
/**
 * The per-transaction buffer `MemoryTransactionStore.Tx`: the add-commands
 * and remove-commands recorded under one transaction id, in the order they
 * were appended, and their replay inside one adapter transaction.
 */
module Buffer {
  import opened Values
  import opened Effects

  /** A deferred `addMessage` on the underlying store `dest`. */
  datatype AddCommand = AddCommand(dest: Destination, message: Message) {

    /** The store call the command makes when it runs. */
    function Call(): StoreCall {
      AddCall(dest, message)
    }
  }

  /**
   * A deferred removal: a plain `removeMessage`, or a topic subscription's
   * `acknowledge`. Both report `ack` as their acknowledgement.
   */
  datatype RemoveCommand =
    | RemoveCommand(dest: Destination, ack: MessageAck)
    | AcknowledgeCommand(dest: Destination, clientId: string, subscription: string,
                         messageId: MessageId, ack: MessageAck)
  {
    function Call(): StoreCall {
      match this
      case RemoveCommand(d, a) => RemoveCall(d, a)
      case AcknowledgeCommand(d, c, n, m, a) => AcknowledgeCall(d, c, n, m, a)
    }
  }

  /** A transaction buffer: pending adds and pending removes, each in append order. */
  datatype Tx = Tx(adds: seq<AddCommand>, removes: seq<RemoveCommand>)

  /** The buffer `getTx` installs for an id it has not seen. */
  const Empty := Tx([], [])

  /** `Tx.add(AddMessageCommand)`. */
  function AppendAdd(tx: Tx, c: AddCommand): Tx {
    tx.(adds := tx.adds + [c])
  }

  /** `Tx.add(RemoveMessageCommand)`. */
  function AppendRemove(tx: Tx, c: RemoveCommand): Tx {
    tx.(removes := tx.removes + [c])
  }

  /** `Tx.getMessages`: the messages of the add-commands, position for position. */
  function Messages(tx: Tx): (ms: seq<Message>)
    ensures |ms| == |tx.adds|
    ensures forall i :: 0 <= i < |tx.adds| ==> ms[i] == tx.adds[i].message
    decreases |tx.adds|
  {
    if tx.adds == [] then []
    else
      var n := |tx.adds| - 1;
      Messages(tx.(adds := tx.adds[..n])) + [tx.adds[n].message]
  }

  /** `Tx.getAcks`: the acknowledgements of the remove-commands, position for position. */
  function Acks(tx: Tx): (acks: seq<MessageAck>)
    ensures |acks| == |tx.removes|
    ensures forall i :: 0 <= i < |tx.removes| ==> acks[i] == tx.removes[i].ack
    decreases |tx.removes|
  {
    if tx.removes == [] then []
    else
      var n := |tx.removes| - 1;
      Acks(tx.(removes := tx.removes[..n])) + [tx.removes[n].ack]
  }

  function AddCalls(tx: Tx): seq<StoreCall> {
    seq(|tx.adds|, i requires 0 <= i < |tx.adds| => tx.adds[i].Call())
  }

  function RemoveCalls(tx: Tx): seq<StoreCall> {
    seq(|tx.removes|, i requires 0 <= i < |tx.removes| => tx.removes[i].Call())
  }

  /** Every buffered command's store call, in the order a replay makes them. */
  function Calls(tx: Tx): seq<StoreCall> {
    AddCalls(tx) + RemoveCalls(tx)
  }

  /** The adapter rolls back after `trace`, whose last call raised `cause`. */
  function Abort(trace: seq<Event>, cause: Outcome, world: World): Run {
    Run(trace + [RollbackTx], if world(RollbackTx) then Raised(RollbackTx) else cause)
  }

  /** The adapter commits after `trace`. */
  function Finish(trace: seq<Event>, world: World): Run {
    Run(trace + [CommitTx], if world(CommitTx) then Raised(CommitTx) else Ok)
  }

  /**
   * `Tx.commit`: begin an adapter transaction, run every add-command, then
   * every remove-command, and commit; the first command that throws makes it
   * roll back and rethrow (an exception thrown by the rollback replaces it).
   */
  function Commit(tx: Tx, world: World): (r: Run)
    ensures 0 < |r.issued| && r.issued[0] == Begin
    // a throwing begin, outside the try, runs no command and rolls nothing back
    ensures world(Begin) ==> r == Run([Begin], Raised(Begin))
    ensures r.outcome == Ok ==> r.issued[|r.issued| - 1] == CommitTx
    ensures RollbackTx in r.issued ==> CommitTx !in r.issued
    // a replay calls only the adapter and the stores, never a hook or the recovery listener
    ensures forall e :: e in r.issued ==> e.Begin? || e.Invoke? || e.CommitTx? || e.RollbackTx?
  {
    if world(Begin) then Run([Begin], Raised(Begin))
    else
      var adds := RunInOrder(Replayed(AddCalls(tx)), world);
      RunOfCallsIssuesCalls(AddCalls(tx), world);
      if adds.outcome.Raised? then Abort([Begin] + adds.issued, adds.outcome, world)
      else
        var removes := RunInOrder(Replayed(RemoveCalls(tx)), world);
        RunOfCallsIssuesCalls(RemoveCalls(tx), world);
        if removes.outcome.Raised? then Abort([Begin] + adds.issued + removes.issued, removes.outcome, world)
        else Finish([Begin] + adds.issued + removes.issued, world)
  }

  /** The two loops of `Tx.commit` behave as one run over `Calls(tx)`. */
  lemma {:induction false} CommitRunsCalls(tx: Tx, world: World)
    requires !world(Begin)
    ensures var run := RunInOrder(Replayed(Calls(tx)), world);
      Commit(tx, world) ==
        if run.outcome.Raised? then Abort([Begin] + run.issued, run.outcome, world)
        else Finish([Begin] + run.issued, world)
  {
    var a, b := Replayed(AddCalls(tx)), Replayed(RemoveCalls(tx));
    ReplayedAppend(AddCalls(tx), RemoveCalls(tx));
    assert Replayed(Calls(tx)) == a + b;
    RunInOrderAppend(a, b, world);
    var ra := RunInOrder(a, world);
    if ra.outcome == Ok {
      assert ra.issued == a;
      var rb := RunInOrder(b, world);
      assert [Begin] + a + rb.issued == [Begin] + (a + rb.issued);
    }
  }

  lemma {:induction false} ReplayTrace(tx: Tx, world: World)
    requires !world(Begin) && NoneRaise(Replayed(Calls(tx)), world)
    ensures Commit(tx, world) == Finish([Begin] + Replayed(Calls(tx)), world)
  {
    CommitRunsCalls(tx, world);
  }

  /**
   * Replay order: when nothing throws, the adapter transaction holds every
   * add-command in append order, then every remove-command in append order,
   * each exactly once, and is committed.
   */
  lemma {:induction false} ReplayOrder(tx: Tx, world: World)
    requires !world(Begin) && NoneRaise(Replayed(Calls(tx)), world)
    ensures var r := Commit(tx, world);
      && r.issued == [Begin] + Replayed(Calls(tx)) + [CommitTx]
      && |r.issued| == |tx.adds| + |tx.removes| + 2
      && r.issued[0] == Begin
      && (forall i :: 0 <= i < |tx.adds| ==> r.issued[1 + i] == Invoke(ReplayContext, tx.adds[i].Call()))
      && (forall j :: 0 <= j < |tx.removes| ==>
            r.issued[1 + |tx.adds| + j] == Invoke(ReplayContext, tx.removes[j].Call()))
      && r.issued[|r.issued| - 1] == CommitTx
      && r.outcome == (if world(CommitTx) then Raised(CommitTx) else Ok)
  {
    ReplayTrace(tx, world);
    var r := Commit(tx, world);
    var replayed := Replayed(Calls(tx));
    forall i | 0 <= i < |tx.adds|
      ensures r.issued[1 + i] == Invoke(ReplayContext, tx.adds[i].Call())
    {
      assert r.issued[1 + i] == replayed[i];
      assert Calls(tx)[i] == AddCalls(tx)[i];
    }
    forall j | 0 <= j < |tx.removes|
      ensures r.issued[1 + |tx.adds| + j] == Invoke(ReplayContext, tx.removes[j].Call())
    {
      assert r.issued[1 + |tx.adds| + j] == replayed[|tx.adds| + j];
      assert Calls(tx)[|tx.adds| + j] == RemoveCalls(tx)[j];
    }
  }

  /**
   * Replay failure: when the k-th command is the first to throw, the
   * commands after it never run, the adapter rolls back instead of
   * committing, and the command's exception reaches the caller.
   */
  lemma {:induction false} ReplayFailure(tx: Tx, world: World, k: nat)
    requires !world(Begin) && FirstRaise(Replayed(Calls(tx)), world, k)
    ensures var r := Commit(tx, world);
      && r.issued == [Begin] + Replayed(Calls(tx)[..k + 1]) + [RollbackTx]
      && CommitTx !in r.issued
      && r.outcome == (if world(RollbackTx) then Raised(RollbackTx)
                       else Raised(Invoke(ReplayContext, Calls(tx)[k])))
  {
    CommitRunsCalls(tx, world);
    var run := RunInOrder(Replayed(Calls(tx)), world);
    assert run.outcome.Raised? by {
      assert Replayed(Calls(tx))[k] == Invoke(ReplayContext, Calls(tx)[k]);
    }
    FirstRaiseUnique(Replayed(Calls(tx)), world, k, |run.issued| - 1);
    assert run.issued == Replayed(Calls(tx)[..k + 1]);
    var r := Commit(tx, world);
    assert r.issued == [Begin] + run.issued + [RollbackTx];
    assert forall i :: 0 <= i < |run.issued| ==> run.issued[i].Invoke?;
  }

  /** `getMessages` after an add-command: the old projection with the new message at the end. */
  lemma {:induction false} MessagesAppend(tx: Tx, c: AddCommand)
    ensures Messages(AppendAdd(tx, c)) == Messages(tx) + [c.message]
    ensures Acks(AppendAdd(tx, c)) == Acks(tx)
  {
  }

  /** `getAcks` after a remove-command: the old projection with the new acknowledgement at the end. */
  lemma {:induction false} AcksAppend(tx: Tx, c: RemoveCommand)
    ensures Acks(AppendRemove(tx, c)) == Acks(tx) + [c.ack]
    ensures Messages(AppendRemove(tx, c)) == Messages(tx)
  {
  }
}

=== FILE: coordinator.dfy ===
/**
 * The coordinator operations of `MemoryTransactionStore` that reach the
 * outside world: `commit`, with its pre- and post-commit hooks, and
 * `recover`, which reports prepared buffers to a recovery listener.
 */
module Coordinator {
  import opened Values
  import opened Effects
  import Buffer
  import opened Registry

  /** Runs the post-commit hook, when there is one, after `trace`. */
  function PostCommit(s: Store, trace: seq<Event>, postCommit: bool, world: World): (r: Step)
    ensures r.state == s
    ensures postCommit ==> r.trace == trace + [PostHook]
    // a throwing hook's exception is the result
    ensures postCommit ==> r.outcome == (if world(PostHook) then Raised(PostHook) else Ok)
    ensures !postCommit ==> r.trace == trace && r.outcome == Ok
  {
    if !postCommit then Step(s, trace, Ok)
    else Step(s, trace + [PostHook], if world(PostHook) then Raised(PostHook) else Ok)
  }

  /**
   * `commit(txid, wasPrepared, preCommit, postCommit)`. `preCommit` and
   * `postCommit` say whether the hooks are non-null.
   */
  function Commit(s: Store, id: TxId, wasPrepared: bool, preCommit: bool, postCommit: bool,
                  world: World): (r: Step)
    // the pre-commit hook is the first call made
    ensures preCommit ==> 0 < |r.trace| && r.trace[0] == PreHook
    // a throwing pre-commit hook stops commit before the registry is touched
    ensures preCommit && world(PreHook) ==> r == Step(s, [PreHook], Raised(PreHook))
    // otherwise the buffer leaves its map before replay and stays out, whatever replay does
    ensures !(preCommit && world(PreHook)) ==> r.state == Take(s, id, wasPrepared).state
    // an id with no buffer: no adapter call, only the hooks
    ensures !(preCommit && world(PreHook)) && Take(s, id, wasPrepared).tx.None? ==>
      && Begin !in r.trace
      && r.trace == (if preCommit then [PreHook] else []) + (if postCommit then [PostHook] else [])
      && r.outcome == (if postCommit && world(PostHook) then Raised(PostHook) else Ok)
    // a buffer: its replay follows the pre-hook, and only the post-hook follows a successful replay
    ensures !(preCommit && world(PreHook)) && Take(s, id, wasPrepared).tx.Some? ==>
      var replay := Buffer.Commit(Take(s, id, wasPrepared).tx.value, world);
      && r.trace == (if preCommit then [PreHook] else []) + replay.issued
                    + (if postCommit && replay.outcome == Ok then [PostHook] else [])
      && (PostHook in r.trace <==> postCommit && replay.outcome == Ok)
    // a failed replay's exception reaches the caller; after a successful one, only the post-hook can throw
    ensures !(preCommit && world(PreHook)) && Take(s, id, wasPrepared).tx.Some? ==>
      var replay := Buffer.Commit(Take(s, id, wasPrepared).tx.value, world);
      r.outcome == (if replay.outcome.Raised? then replay.outcome
                    else if postCommit && world(PostHook) then Raised(PostHook)
                    else Ok)
  {
    if preCommit && world(PreHook) then Step(s, [PreHook], Raised(PreHook))
    else
      var pre := if preCommit then [PreHook] else [];
      var taken := Take(s, id, wasPrepared);
      match taken.tx
      case None => PostCommit(taken.state, pre, postCommit, world)
      case Some(tx) =>
        var replay := Buffer.Commit(tx, world);
        assert PostHook !in replay.issued;
        if replay.outcome.Raised? then Step(taken.state, pre + replay.issued, replay.outcome)
        else PostCommit(taken.state, pre + replay.issued, postCommit, world)
  }

  /** `order` lists every key of `m` exactly once: the iteration order of the map. */
  predicate Enumerates(order: seq<TxId>, m: map<TxId, Buffer.Tx>) {
    && (forall i :: 0 <= i < |order| ==> order[i] in m)
    && (forall id :: id in m ==> id in order)
    && (forall i, j :: 0 <= i < j < |order| ==> order[i] != order[j])
  }

  /** The listener call recovery makes for a prepared buffer. */
  function Report(id: TxId, tx: Buffer.Tx): Event {
    Recovered(id, Buffer.Messages(tx), Buffer.Acks(tx))
  }

  /** `e` is the listener call for a prepared id, carrying that buffer's messages and acks. */
  predicate IsReport(e: Event, prepared: map<TxId, Buffer.Tx>) {
    e.Recovered? && e.txId in prepared && e == Report(e.txId, prepared[e.txId])
  }

  /** The listener calls for the prepared ids in `order`, one per id, in that order. */
  function Reports(prepared: map<TxId, Buffer.Tx>, order: seq<TxId>): (es: seq<Event>)
    requires forall i :: 0 <= i < |order| ==> order[i] in prepared
    ensures |es| == |order|
    ensures forall i :: 0 <= i < |es| ==> es[i].Recovered? && es[i].txId == order[i] && IsReport(es[i], prepared)
  {
    seq(|order|, i requires 0 <= i < |order| => Report(order[i], prepared[order[i]]))
  }

  /** What a run of the listener calls for `order` reports, however it ends. */
  predicate ReportsPrepared(trace: seq<Event>, prepared: map<TxId, Buffer.Tx>) {
    && (forall i :: 0 <= i < |trace| ==> IsReport(trace[i], prepared))
    && (forall i, j :: 0 <= i < j < |trace| ==> trace[i].txId != trace[j].txId)
  }

  /** Every prepared id has a listener call in `trace`, with its buffer's messages and acks. */
  predicate ReportsAll(trace: seq<Event>, prepared: map<TxId, Buffer.Tx>) {
    forall id :: id in prepared ==> exists i :: 0 <= i < |trace| && trace[i] == Report(id, prepared[id])
  }

  /** The calls a listener run made are the first reports of `order`. */
  lemma {:induction false} ReportRunPrefix(prepared: map<TxId, Buffer.Tx>, order: seq<TxId>, world: World)
    requires forall i :: 0 <= i < |order| ==> order[i] in prepared
    ensures var run := RunInOrder(Reports(prepared, order), world);
      && |run.issued| <= |order|
      && (run.outcome == Ok ==> |run.issued| == |order|)
      && forall i :: 0 <= i < |run.issued| ==>
           run.issued[i].Recovered? && run.issued[i].txId == order[i] && IsReport(run.issued[i], prepared)
  {
    var es := Reports(prepared, order);
    var run := RunInOrder(es, world);
    assert forall i :: 0 <= i < |run.issued| ==> run.issued[i] == es[i];
  }

  /** A listener run reports distinct prepared ids, each with its buffer's messages and acks. */
  lemma {:induction false} ReportRunDistinct(prepared: map<TxId, Buffer.Tx>, order: seq<TxId>, world: World)
    requires Enumerates(order, prepared)
    ensures ReportsPrepared(RunInOrder(Reports(prepared, order), world).issued, prepared)
  {
    ReportRunPrefix(prepared, order, world);
  }

  /** A listener run that ends normally has reported every prepared id. */
  lemma {:induction false} ReportRunComplete(prepared: map<TxId, Buffer.Tx>, order: seq<TxId>, world: World)
    requires Enumerates(order, prepared)
    ensures var run := RunInOrder(Reports(prepared, order), world);
      run.outcome == Ok ==> ReportsAll(run.issued, prepared)
  {
    var run := RunInOrder(Reports(prepared, order), world);
    ReportRunPrefix(prepared, order, world);
    if run.outcome == Ok {
      forall id | id in prepared
        ensures exists i :: 0 <= i < |run.issued| && run.issued[i] == Report(id, prepared[id])
      {
        var i :| 0 <= i < |order| && order[i] == id;
        assert run.issued[i] == Report(id, prepared[id]);
      }
    }
  }

  /** The listener loop: distinct reports, complete on a normal end, stopped by the first throw. */
  lemma {:induction false} ReportRun(prepared: map<TxId, Buffer.Tx>, order: seq<TxId>, world: World)
    requires Enumerates(order, prepared)
    ensures var run := RunInOrder(Reports(prepared, order), world);
      && ReportsPrepared(run.issued, prepared)
      && (run.outcome == Ok ==> ReportsAll(run.issued, prepared))
      && (run.outcome == Ok <==> NoneRaise(run.issued, world))
      && EndsAtFirstRaise(run.issued, run.outcome, world)
  {
    ReportRunDistinct(prepared, order, world);
    ReportRunComplete(prepared, order, world);
    RunEndsAtRaise(Reports(prepared, order), world);
  }

  /**
   * `recover(listener)`: discards every in-flight buffer, raises the
   * recovery flag, hands each prepared buffer's messages and acks to the
   * listener in the map's iteration order `order`, and lowers the flag again
   * however the loop ends. `world(Recovered(..))` is the listener throwing.
   */
  function Recover(s: Store, order: seq<TxId>, world: World): (r: Step)
    requires Enumerates(order, s.prepared)
    ensures r.state.inflight == map[] && r.state.prepared == s.prepared && !r.state.doingRecover
    // each report is a distinct prepared buffer's messages and acks
    ensures ReportsPrepared(r.trace, s.prepared)
    // on a normal return every prepared id has been reported
    ensures r.outcome == Ok ==> ReportsAll(r.trace, s.prepared)
    // a throwing listener ends the loop at the report it threw on, and its exception ends `recover`
    ensures r.outcome == Ok <==> NoneRaise(r.trace, world)
    ensures EndsAtFirstRaise(r.trace, r.outcome, world)
  {
    var recovering := Store(map[], s.prepared, true);
    var run := RunInOrder(Reports(s.prepared, order), world);
    ReportRun(s.prepared, order, world);
    Step(recovering.(doingRecover := false), run.issued, run.outcome)
  }
}

=== FILE: decorator.dfy ===
/**
 * The interception methods of `MemoryTransactionStore`: `addMessage`,
 * `removeMessage` and `acknowledge`. Each drops the call while recovery is
 * running, buffers it when it belongs to a transaction, and otherwise hands
 * it straight to the underlying store with a null context.
 */
module Decorator {
  import opened Values
  import opened Effects
  import opened Buffer
  import opened Registry

  /** `r` is `s` with the in-flight buffer of `id` replaced by `tx`, and nothing else changed. */
  predicate Buffered(s: Store, r: Store, id: TxId, tx: Tx) {
    && id in r.inflight && r.inflight[id] == tx
    && r.inflight - {id} == s.inflight - {id}
    && r.prepared == s.prepared
    && r.doingRecover == s.doingRecover
  }

  /** `r` is the store call `call` made at once with a null context, the registry untouched. */
  predicate Delegated(s: Store, r: Step, call: StoreCall, world: World) {
    && r.state == s
    && r.trace == [Invoke(NoContext, call)]
    && r.outcome == (if world(Invoke(NoContext, call)) then Raised(Invoke(NoContext, call)) else Ok)
  }

  function Delegate(s: Store, call: StoreCall, world: World): (r: Step)
    ensures Delegated(s, r, call, world)
  {
    var e := Invoke(NoContext, call);
    Step(s, [e], if world(e) then Raised(e) else Ok)
  }

  /** `addMessage(destination, message)`; `dest` is the proxied store. */
  function AddMessage(s: Store, dest: Destination, message: Message, world: World): (r: Step)
    ensures s.doingRecover ==> r == Step(s, [], Ok)
    ensures !s.doingRecover && message.txId.Some? ==>
      var id := message.txId.value;
      && r.trace == [] && r.outcome == Ok
      && Buffered(s, r.state, id, AppendAdd(GetTx(s, id).tx, AddCommand(dest, message)))
    ensures !s.doingRecover && message.txId.None? ==> Delegated(s, r, AddCall(dest, message), world)
  {
    if s.doingRecover then Step(s, [], Ok)
    else if message.txId.Some? then Step(EnlistAdd(s, message.txId.value, AddCommand(dest, message)), [], Ok)
    else Delegate(s, AddCall(dest, message), world)
  }

  /** `removeMessage(destination, ack)`. */
  function RemoveMessage(s: Store, dest: Destination, ack: MessageAck, world: World): (r: Step)
    ensures s.doingRecover ==> r == Step(s, [], Ok)
    ensures !s.doingRecover && ack.InTransaction() ==>
      var id := ack.txId.value;
      && r.trace == [] && r.outcome == Ok
      && Buffered(s, r.state, id, AppendRemove(GetTx(s, id).tx, RemoveCommand(dest, ack)))
    ensures !s.doingRecover && !ack.InTransaction() ==> Delegated(s, r, RemoveCall(dest, ack), world)
  {
    if s.doingRecover then Step(s, [], Ok)
    else if ack.InTransaction() then Step(EnlistRemove(s, ack.txId.value, RemoveCommand(dest, ack)), [], Ok)
    else Delegate(s, RemoveCall(dest, ack), world)
  }

  /** `acknowledge(destination, clientId, subscriptionName, messageId, ack)` of a topic store. */
  function Acknowledge(s: Store, dest: Destination, clientId: string, subscription: string,
                       messageId: MessageId, ack: MessageAck, world: World): (r: Step)
    ensures s.doingRecover ==> r == Step(s, [], Ok)
    ensures !s.doingRecover && ack.InTransaction() ==>
      var id := ack.txId.value;
      && r.trace == [] && r.outcome == Ok
      && Buffered(s, r.state, id,
           AppendRemove(GetTx(s, id).tx, AcknowledgeCommand(dest, clientId, subscription, messageId, ack)))
    ensures !s.doingRecover && !ack.InTransaction() ==>
      Delegated(s, r, AcknowledgeCall(dest, clientId, subscription, messageId, ack), world)
  {
    if s.doingRecover then Step(s, [], Ok)
    else if ack.InTransaction() then
      Step(EnlistRemove(s, ack.txId.value, AcknowledgeCommand(dest, clientId, subscription, messageId, ack)), [], Ok)
    else Delegate(s, AcknowledgeCall(dest, clientId, subscription, messageId, ack), world)
  }

  /** One call into any of the three interception methods. */
  datatype Operation =
    | AddOp(dest: Destination, message: Message)
    | RemoveOp(dest: Destination, ack: MessageAck)
    | AcknowledgeOp(dest: Destination, clientId: string, subscription: string,
                    messageId: MessageId, ack: MessageAck)
  {
    /** The transaction the operation belongs to, if any. */
    function Transaction(): Option<TxId> {
      if AddOp? then message.txId else ack.txId
    }
  }

  function Route(s: Store, op: Operation, world: World): Step {
    match op
    case AddOp(d, m) => AddMessage(s, d, m, world)
    case RemoveOp(d, a) => RemoveMessage(s, d, a, world)
    case AcknowledgeOp(d, c, n, i, a) => Acknowledge(s, d, c, n, i, a, world)
  }
}

=== FILE: effects.dfy ===
/**
 * The world outside the transaction store, seen as a trace of calls: the
 * persistence adapter's begin/commit/rollback, the underlying stores'
 * add/remove/acknowledge primitives, the commit hooks and the recovery
 * listener. Which of those calls throw is an oracle over the calls.
 */
module Effects {
  import opened Values

  /** The connection context a store call receives: the one a replay opens, or null. */
  datatype Context = NoContext | ReplayContext

  /** A synchronous primitive of an underlying (non-transactional) store. */
  datatype StoreCall =
    | AddCall(dest: Destination, message: Message)
    | RemoveCall(dest: Destination, ack: MessageAck)
    | AcknowledgeCall(dest: Destination, clientId: string, subscription: string,
                      messageId: MessageId, ack: MessageAck)

  /** One call from the transaction store into code it does not own. */
  datatype Event =
    | Begin                                  // persistenceAdapter.beginTransaction
    | Invoke(ctx: Context, call: StoreCall)  // a store primitive
    | CommitTx                               // persistenceAdapter.commitTransaction
    | RollbackTx                             // persistenceAdapter.rollbackTransaction
    | PreHook                                // the pre-commit Runnable
    | PostHook                               // the post-commit Runnable
    | Recovered(txId: TxId, messages: seq<Message>, acks: seq<MessageAck>)  // the recovery listener

  /** `world(e)` holds when the call `e` throws. */
  type World = Event -> bool

  /** How an operation ends: normally, or with the exception raised by one call. */
  datatype Outcome = Ok | Raised(cause: Event)

  /** The calls an operation made, in order, and how it ended. */
  datatype Run = Run(issued: seq<Event>, outcome: Outcome)

  predicate NoneRaise(es: seq<Event>, world: World) {
    forall i :: 0 <= i < |es| ==> !world(es[i])
  }

  /** `es[k]` is the first call of `es` that throws. */
  predicate FirstRaise(es: seq<Event>, world: World, k: int) {
    0 <= k < |es| && world(es[k]) && NoneRaise(es[..k], world)
  }

  /** Store calls as a replay issues them, inside the replay's context. */
  function Replayed(calls: seq<StoreCall>): seq<Event> {
    seq(|calls|, i requires 0 <= i < |calls| => Invoke(ReplayContext, calls[i]))
  }

  lemma {:induction false} FirstRaiseUnique(es: seq<Event>, world: World, j: int, k: int)
    requires FirstRaise(es, world, j) && FirstRaise(es, world, k)
    ensures j == k
  {
  }

  lemma {:induction false} ReplayedAppend(a: seq<StoreCall>, b: seq<StoreCall>)
    ensures Replayed(a + b) == Replayed(a) + Replayed(b)
  {
  }

  /** No call of `es` throws exactly when its first does not and none of the rest does. */
  lemma {:induction false} NoneRaiseCons(es: seq<Event>, world: World)
    requires 0 < |es|
    ensures NoneRaise(es, world) <==> !world(es[0]) && NoneRaise(es[1..], world)
  {
    if !world(es[0]) && NoneRaise(es[1..], world) {
      forall i | 0 <= i < |es|
        ensures !world(es[i])
      {
        if 0 < i {
          assert es[i] == es[1..][i - 1];
        }
      }
    }
  }

  /** Past a first call that does not throw, the first thrower is found in the rest. */
  lemma {:induction false} FirstRaiseCons(es: seq<Event>, world: World, k: int)
    requires 0 < |es| && !world(es[0])
    ensures FirstRaise(es, world, k + 1) <==> FirstRaise(es[1..], world, k)
  {
    if 0 <= k < |es| - 1 {
      assert es[..k + 1][1..] == es[1..][..k];
      NoneRaiseCons(es[..k + 1], world);
    }
  }

  /**
   * Makes the calls `es` one after another and stops at the first that
   * throws, whose exception ends the run: what a Java loop over the calls
   * does when nothing catches inside it.
   */
  function RunInOrder(es: seq<Event>, world: World): (r: Run)
    ensures r.outcome == Ok <==> NoneRaise(es, world)
    ensures r.outcome == Ok ==> r.issued == es
    ensures r.outcome.Raised? ==>
      && 0 < |r.issued| <= |es|
      && r.issued == es[..|r.issued|]
      && FirstRaise(es, world, |r.issued| - 1)
      && r.outcome == Raised(es[|r.issued| - 1])
  {
    if es == [] then Run([], Ok)
    else if world(es[0]) then Run([es[0]], Raised(es[0]))
    else
      var rest := RunInOrder(es[1..], world);
      NoneRaiseCons(es, world);
      FirstRaiseCons(es, world, |rest.issued| - 1);
      assert rest.outcome.Raised? ==> es[..|rest.issued| + 1] == [es[0]] + es[1..][..|rest.issued|];
      Run([es[0]] + rest.issued, rest.outcome)
  }

  /** A run that raised ended at its first throwing call, whose exception is the result. */
  predicate EndsAtFirstRaise(issued: seq<Event>, outcome: Outcome, world: World) {
    outcome.Raised? ==>
      && 0 < |issued| && outcome == Raised(issued[|issued| - 1])
      && FirstRaise(issued, world, |issued| - 1)
  }

  /** A run ends normally exactly when none of its own calls threw; one that raised ends with its first throwing call. */
  lemma {:induction false} RunEndsAtRaise(es: seq<Event>, world: World)
    ensures var r := RunInOrder(es, world);
      && (r.outcome == Ok <==> NoneRaise(r.issued, world))
      && EndsAtFirstRaise(r.issued, r.outcome, world)
  {
    var r := RunInOrder(es, world);
    if r.outcome.Raised? {
      assert r.issued[..|r.issued| - 1] == es[..|r.issued| - 1];
    }
  }

  /** A replay issues nothing but store calls. */
  lemma {:induction false} RunOfCallsIssuesCalls(calls: seq<StoreCall>, world: World)
    ensures forall e :: e in RunInOrder(Replayed(calls), world).issued ==> e.Invoke?
  {
  }

  /** Past a first call that does not throw, a run goes on with the rest. */
  lemma {:induction false} RunInOrderCons(es: seq<Event>, world: World)
    requires 0 < |es| && !world(es[0])
    ensures var rest := RunInOrder(es[1..], world);
      RunInOrder(es, world) == Run([es[0]] + rest.issued, rest.outcome)
  {
  }

  /** Running `a + b` is running `a`, then `b` only if `a` raised nothing. */
  lemma {:induction false} RunInOrderAppend(a: seq<Event>, b: seq<Event>, world: World)
    ensures RunInOrder(a + b, world) ==
      var ra := RunInOrder(a, world);
      if ra.outcome.Raised? then ra
      else var rb := RunInOrder(b, world); Run(a + rb.issued, rb.outcome)
  {
    if a == [] {
      assert a + b == b;
    } else {
      assert (a + b)[0] == a[0];
      assert (a + b)[1..] == a[1..] + b;
      if !world(a[0]) {
        RunInOrderAppend(a[1..], b, world);
        RunInOrderCons(a, world);
        RunInOrderCons(a + b, world);
        var tail := RunInOrder(a[1..], world);
        if tail.outcome == Ok {
          var rb := RunInOrder(b, world);
          assert [a[0]] + (a[1..] + rb.issued) == a + rb.issued;
        }
      }
    }
  }
}

=== FILE: lifecycle.dfy ===
/**
 * Properties that span several operations of `MemoryTransactionStore`:
 * buffering a session of intercepted calls and committing it, the two-phase
 * and one-phase commit paths, repeated commits and rollbacks, appends after
 * a transaction is finished, and recovery.
 */
module Lifecycle {
  import opened Values
  import opened Effects
  import Buffer
  import opened Registry
  import Coordinator
  import Decorator

  /** The registry after each intercepted call in turn; a call that throws does not stop the later ones. */
  function Apply(s: Store, ops: seq<Decorator.Operation>, world: World): Store
    decreases |ops|
  {
    if ops == [] then s
    else Decorator.Route(Apply(s, ops[..|ops| - 1], world), ops[|ops| - 1], world).state
  }

  /** The add-commands a transactional session of calls buffers, in call order. */
  function AddsOf(ops: seq<Decorator.Operation>): seq<Buffer.AddCommand>
    decreases |ops|
  {
    if ops == [] then []
    else
      var op := ops[|ops| - 1];
      AddsOf(ops[..|ops| - 1]) + if op.AddOp? then [Buffer.AddCommand(op.dest, op.message)] else []
  }

  /** The remove-commands a transactional session of calls buffers, in call order. */
  function RemovesOf(ops: seq<Decorator.Operation>): seq<Buffer.RemoveCommand>
    decreases |ops|
  {
    if ops == [] then []
    else
      var op := ops[|ops| - 1];
      RemovesOf(ops[..|ops| - 1]) +
        match op
        case AddOp(_, _) => []
        case RemoveOp(d, a) => [Buffer.RemoveCommand(d, a)]
        case AcknowledgeOp(d, c, n, i, a) => [Buffer.AcknowledgeCommand(d, c, n, i, a)]
  }

  predicate AllUnder(ops: seq<Decorator.Operation>, id: TxId) {
    forall i :: 0 <= i < |ops| ==> ops[i].Transaction() == Some(id)
  }

  /** One intercepted call under `id` appends its command to `getTx(id)`'s buffer. */
  lemma {:induction false} RouteAppends(u: Store, id: TxId, op: Decorator.Operation, world: World)
    requires !u.doingRecover && op.Transaction() == Some(id)
    ensures var r := Decorator.Route(u, op, world).state;
      var tx := GetTx(u, id).tx;
      && r.prepared == u.prepared && !r.doingRecover
      && r.inflight - {id} == u.inflight - {id}
      && id in r.inflight
      && r.inflight[id] == Buffer.Tx(tx.adds + AddsOf([op]), tx.removes + RemovesOf([op]))
  {
  }

  lemma {:induction false} SplitLast(ops: seq<Decorator.Operation>)
    requires ops != []
    ensures AddsOf(ops) == AddsOf(ops[..|ops| - 1]) + AddsOf([ops[|ops| - 1]])
    ensures RemovesOf(ops) == RemovesOf(ops[..|ops| - 1]) + RemovesOf([ops[|ops| - 1]])
  {
  }

  /**
   * Calls made under one transaction id outside recovery land in that id's
   * in-flight buffer, adds and removes each in call order after whatever the
   * buffer held, and touch nothing else.
   */
  lemma {:induction false} BufferedInOrder(s: Store, id: TxId, ops: seq<Decorator.Operation>, world: World)
    requires !s.doingRecover && AllUnder(ops, id)
    ensures var t := Apply(s, ops, world);
      var before := GetTx(s, id).tx;
      && t.prepared == s.prepared && !t.doingRecover
      && t.inflight - {id} == s.inflight - {id}
      && (ops != [] ==>
            && id in t.inflight
            && t.inflight[id] == Buffer.Tx(before.adds + AddsOf(ops), before.removes + RemovesOf(ops)))
  {
    if ops != [] {
      var n := |ops| - 1;
      var init := ops[..n];
      assert AllUnder(init, id);
      BufferedInOrder(s, id, init, world);
      var u := Apply(s, init, world);
      var before := GetTx(s, id).tx;
      assert GetTx(u, id).tx == Buffer.Tx(before.adds + AddsOf(init), before.removes + RemovesOf(init)) by {
        if init == [] {
          assert u == s;
        }
      }
      assert ops[n].Transaction() == Some(id);
      RouteAppends(u, id, ops[n], world);
      SplitLast(ops);
      assert Apply(s, ops, world) == Decorator.Route(u, ops[n], world).state;
      assert before.adds + AddsOf(init) + AddsOf([ops[n]]) == before.adds + AddsOf(ops);
      assert before.removes + RemovesOf(init) + RemovesOf([ops[n]]) == before.removes + RemovesOf(ops);
    }
  }

  /**
   * Committing a session buffered under a fresh id replays exactly the
   * session's adds, then its removes, and leaves the registry as it was
   * before the session.
   */
  lemma {:induction false} SessionCommit(s: Store, id: TxId, ops: seq<Decorator.Operation>, world: World)
    requires !s.doingRecover && id !in s.inflight && ops != [] && AllUnder(ops, id)
    ensures var tx := Buffer.Tx(AddsOf(ops), RemovesOf(ops));
      var c := Coordinator.Commit(Apply(s, ops, world), id, false, false, false, world);
      && c.trace == Buffer.Commit(tx, world).issued
      && c.outcome == Buffer.Commit(tx, world).outcome
      && c.state == s
  {
    BufferedInOrder(s, id, ops, world);
    var t := Apply(s, ops, world);
    assert t.inflight - {id} == s.inflight;
    var tx := Buffer.Tx(AddsOf(ops), RemovesOf(ops));
    assert GetTx(s, id).tx == Buffer.Empty;
    assert t.inflight[id] == tx;
    assert Take(t, id, false) == Taken(s, Some(tx));
  }

  /** The buffer add(M1), remove(A0), add(M2) leaves: the adds, then the remove. */
  lemma {:induction false} ScenarioBuffer(d: Destination, m1: Message, m2: Message, a0: MessageAck)
    ensures var ops := [Decorator.AddOp(d, m1), Decorator.RemoveOp(d, a0), Decorator.AddOp(d, m2)];
      && AddsOf(ops) == [Buffer.AddCommand(d, m1), Buffer.AddCommand(d, m2)]
      && RemovesOf(ops) == [Buffer.RemoveCommand(d, a0)]
  {
    var ops := [Decorator.AddOp(d, m1), Decorator.RemoveOp(d, a0), Decorator.AddOp(d, m2)];
    var first, second := [ops[0]], [ops[0], ops[1]];
    assert first[..0] == [] && second[..1] == first && ops[..2] == second;
    assert AddsOf(first) == [Buffer.AddCommand(d, m1)] && RemovesOf(first) == [];
    assert AddsOf(second) == [Buffer.AddCommand(d, m1)];
    assert RemovesOf(second) == [Buffer.RemoveCommand(d, a0)];
  }

  /**
   * add(M1), remove(A0), add(M2) under one fresh id, then a one-phase
   * commit: the store sees M1, M2 and then A0 inside one adapter transaction.
   */
  lemma {:induction false} AddsReplayBeforeRemoves(s: Store, id: TxId, d: Destination, m1: Message, m2: Message,
                                                   a0: MessageAck, world: World)
    requires !s.doingRecover && id !in s.inflight
    requires m1.txId == Some(id) && m2.txId == Some(id) && a0.txId == Some(id)
    requires !world(Begin) && !world(CommitTx)
    requires !world(Invoke(ReplayContext, AddCall(d, m1))) && !world(Invoke(ReplayContext, AddCall(d, m2)))
    requires !world(Invoke(ReplayContext, RemoveCall(d, a0)))
    ensures var ops := [Decorator.AddOp(d, m1), Decorator.RemoveOp(d, a0), Decorator.AddOp(d, m2)];
      Coordinator.Commit(Apply(s, ops, world), id, false, false, false, world) ==
        Step(s, [Begin, Invoke(ReplayContext, AddCall(d, m1)), Invoke(ReplayContext, AddCall(d, m2)),
                 Invoke(ReplayContext, RemoveCall(d, a0)), CommitTx], Ok)
  {
    var ops := [Decorator.AddOp(d, m1), Decorator.RemoveOp(d, a0), Decorator.AddOp(d, m2)];
    assert AllUnder(ops, id);
    SessionCommit(s, id, ops, world);
    ScenarioBuffer(d, m1, m2, a0);
    ScenarioReplay(d, m1, m2, a0, world);
  }

  lemma ScenarioReplay(d: Destination, m1: Message, m2: Message, a0: MessageAck, world: World)
    requires !world(Begin) && !world(CommitTx)
    requires !world(Invoke(ReplayContext, AddCall(d, m1))) && !world(Invoke(ReplayContext, AddCall(d, m2)))
    requires !world(Invoke(ReplayContext, RemoveCall(d, a0)))
    ensures Buffer.Commit(Buffer.Tx([Buffer.AddCommand(d, m1), Buffer.AddCommand(d, m2)],
                                    [Buffer.RemoveCommand(d, a0)]), world) ==
      Run([Begin, Invoke(ReplayContext, AddCall(d, m1)), Invoke(ReplayContext, AddCall(d, m2)),
           Invoke(ReplayContext, RemoveCall(d, a0)), CommitTx], Ok)
  {
  }

  /**
   * `prepare` then `commit(wasPrepared = true)` makes the same calls, ends
   * the same way and leaves the same registry as `commit(wasPrepared =
   * false)` on the in-flight buffer.
   */
  lemma PrepareThenCommit(s: Store, id: TxId, preCommit: bool, postCommit: bool, world: World)
    requires id in s.inflight && id !in s.prepared
    ensures var direct := Coordinator.Commit(s, id, false, preCommit, postCommit, world);
      var twoPhase := Coordinator.Commit(Prepare(s, id), id, true, preCommit, postCommit, world);
      && twoPhase.trace == direct.trace
      && twoPhase.outcome == direct.outcome
      && (!(preCommit && world(PreHook)) ==> twoPhase.state == direct.state)
  {
  }

  /**
   * From disjoint maps, a commit that gets past its pre-commit hook leaves
   * the id absent, unless the id sits in the other map than the one
   * `wasPrepared` names; the maps stay disjoint.
   */
  lemma CommitFinalises(s: Store, id: TxId, wasPrepared: bool, preCommit: bool, postCommit: bool, world: World)
    requires Disjoint(s) && !(preCommit && world(PreHook))
    ensures var c := Coordinator.Commit(s, id, wasPrepared, preCommit, postCommit, world);
      && Disjoint(c.state)
      && StatusOf(c.state, id) ==
           (if StatusOf(s, id) == (if wasPrepared then InFlight else Prepared) then StatusOf(s, id) else Absent)
  {
  }

  /** A commit of an id the registry no longer holds only runs the hooks: committing twice is harmless. */
  lemma CommitOfAbsentIdRunsOnlyHooks(s: Store, id: TxId, wasPrepared: bool, preCommit: bool,
                                      postCommit: bool, world: World)
    requires StatusOf(s, id) == Absent
    ensures var c := Coordinator.Commit(s, id, wasPrepared, preCommit, postCommit, world);
      && c.state == s
      && c.trace == (if preCommit then [PreHook] else []) +
                    (if postCommit && !(preCommit && world(PreHook)) then [PostHook] else [])
      && (c.outcome == Ok <==> !(preCommit && world(PreHook)) && !(postCommit && world(PostHook)))
  {
  }

  /**
   * An add under an id after that id's commit is not refused: `getTx`
   * installs a new, empty in-flight buffer and the add lands there.
   */
  lemma LateAppendReopens(s: Store, id: TxId, wasPrepared: bool, preCommit: bool, postCommit: bool,
                          world: World, dest: Destination, m: Message)
    requires Disjoint(s) && !s.doingRecover && !(preCommit && world(PreHook))
    requires StatusOf(s, id) == (if wasPrepared then Prepared else InFlight)
    requires m.txId == Some(id)
    ensures var c := Coordinator.Commit(s, id, wasPrepared, preCommit, postCommit, world);
      var late := Decorator.AddMessage(c.state, dest, m, world);
      && late.outcome == Ok && late.trace == []
      && StatusOf(late.state, id) == InFlight
      && late.state.inflight[id] == Buffer.Tx([Buffer.AddCommand(dest, m)], [])
  {
  }

  /**
   * An add under an id that is prepared but not in flight creates a second,
   * in-flight buffer for the same id: the maps stop being disjoint.
   */
  lemma AppendToPreparedOverlaps(s: Store, id: TxId, dest: Destination, m: Message, world: World)
    requires !s.doingRecover && StatusOf(s, id) == Prepared && m.txId == Some(id)
    ensures var r := Decorator.AddMessage(s, dest, m, world);
      && StatusOf(r.state, id) == InBoth && !Disjoint(r.state)
      && r.state.prepared[id] == s.prepared[id]
      && r.state.inflight[id] == Buffer.Tx([Buffer.AddCommand(dest, m)], [])
  {
  }

  /** While recovery runs, every intercepted call is a no-op that returns normally. */
  lemma {:induction false} RecoveryModeIsInert(s: Store, ops: seq<Decorator.Operation>, world: World)
    requires s.doingRecover
    ensures Apply(s, ops, world) == s
    ensures forall i :: 0 <= i < |ops| ==> Decorator.Route(s, ops[i], world) == Step(s, [], Ok)
  {
    if ops != [] {
      RecoveryModeIsInert(s, ops[..|ops| - 1], world);
    }
  }

  /**
   * Recovery drops every in-flight buffer without reporting it, keeps every
   * prepared one, and leaves disjoint maps.
   */
  lemma RecoverFate(s: Store, order: seq<TxId>, world: World, id: TxId)
    requires Coordinator.Enumerates(order, s.prepared)
    ensures var r := Coordinator.Recover(s, order, world);
      && Disjoint(r.state)
      && (StatusOf(s, id) == InFlight ==>
            StatusOf(r.state, id) == Absent && forall i :: 0 <= i < |r.trace| ==> r.trace[i].txId != id)
      && (id in s.prepared ==> StatusOf(r.state, id) == Prepared)
  {
  }

  /**
   * Recovery does not consume the prepared buffers: running it again, with a
   * listener that behaves the same way, reports the same again.
   */
  lemma RecoverIsRepeatable(s: Store, order: seq<TxId>, world: World)
    requires Coordinator.Enumerates(order, s.prepared)
    ensures var first := Coordinator.Recover(s, order, world);
      var second := Coordinator.Recover(first.state, order, world);
      second == first
  {
  }
}

=== FILE: proxy.dfy ===
/**
 * The two anonymous proxies `proxy(MessageStore)` and
 * `proxy(TopicMessageStore)`: every overridden add, async add, remove and
 * acknowledge variant ignores the caller's context and is routed into the
 * interception methods with the proxied store as destination.
 */
module Proxy {
  import opened Values
  import opened Effects
  import opened Buffer
  import opened Registry
  import Decorator

  /** What a proxy method hands back: nothing, or the already completed future. */
  datatype Reply = Returned | CompletedFuture

  datatype ProxyResult = ProxyResult(step: Step, reply: Reply)

  /** The methods the plain-store proxy overrides. */
  datatype QueueCall =
    | AddMessage(message: Message)
    | AddMessageHinted(message: Message, canOptimize: bool)
    | AsyncAddQueueMessage(message: Message)
    | AsyncAddQueueMessageHinted(message: Message, canOptimize: bool)
    | RemoveMessage(ack: MessageAck)
    | RemoveAsyncMessage(ack: MessageAck)
  {
    predicate IsAsync() {
      AsyncAddQueueMessage? || AsyncAddQueueMessageHinted?
    }

    predicate IsAdd() {
      AddMessage? || AddMessageHinted? || IsAsync()
    }
  }

  /** The methods the topic-store proxy overrides. */
  datatype TopicCall =
    | AddMessage(message: Message)
    | AddMessageHinted(message: Message, canOptimize: bool)
    | AsyncAddTopicMessage(message: Message)
    | AsyncAddTopicMessageHinted(message: Message, canOptimize: bool)
    | RemoveMessage(ack: MessageAck)
    | RemoveAsyncMessage(ack: MessageAck)
    | Acknowledge(clientId: string, subscription: string, messageId: MessageId, ack: MessageAck)
  {
    predicate IsAsync() {
      AsyncAddTopicMessage? || AsyncAddTopicMessageHinted?
    }

    predicate IsAdd() {
      AddMessage? || AddMessageHinted? || IsAsync()
    }
  }

  /** The interception a plain-store proxy call becomes. */
  function QueueOperation(delegate: Destination, call: QueueCall): Decorator.Operation {
    if call.IsAdd() then Decorator.AddOp(delegate, call.message)
    else Decorator.RemoveOp(delegate, call.ack)
  }

  /** The interception a topic-store proxy call becomes. */
  function TopicOperation(delegate: Destination, call: TopicCall): Decorator.Operation {
    if call.IsAdd() then Decorator.AddOp(delegate, call.message)
    else if call.Acknowledge? then
      Decorator.AcknowledgeOp(delegate, call.clientId, call.subscription, call.messageId, call.ack)
    else Decorator.RemoveOp(delegate, call.ack)
  }

  /** The proxy's answer once the interception has run. */
  function Answer(step: Step, async: bool): (r: ProxyResult)
    ensures r.step == step
    ensures r.reply == CompletedFuture <==> async && step.outcome == Ok
  {
    ProxyResult(step, if async && step.outcome == Ok then CompletedFuture else Returned)
  }

  /**
   * `proxy(MessageStore)` applied to `call`, the proxied store being
   * `delegate`: dropped during recovery, buffered as one command at the end
   * of the transaction's buffer, or one store call on `delegate` with a null
   * context; the async variants answer with the completed future.
   */
  function QueueProxy(s: Store, delegate: Destination, call: QueueCall, world: World): (r: ProxyResult)
    // the interception receives the caller's own message or acknowledgement
    ensures call.IsAdd() ==> r.step == Decorator.AddMessage(s, delegate, call.message, world)
    ensures !call.IsAdd() ==> r.step == Decorator.RemoveMessage(s, delegate, call.ack, world)
    ensures r.reply == CompletedFuture <==> call.IsAsync() && r.step.outcome == Ok
  {
    Answer(Decorator.Route(s, QueueOperation(delegate, call), world), call.IsAsync())
  }

  /** `proxy(TopicMessageStore)` applied to `call`: routed as `QueueProxy` describes. */
  function TopicProxy(s: Store, delegate: Destination, call: TopicCall, world: World): (r: ProxyResult)
    // the interception receives the caller's own message, acknowledgement and subscription details
    ensures call.IsAdd() ==> r.step == Decorator.AddMessage(s, delegate, call.message, world)
    ensures call.Acknowledge? ==>
      r.step == Decorator.Acknowledge(s, delegate, call.clientId, call.subscription, call.messageId, call.ack, world)
    ensures !call.IsAdd() && !call.Acknowledge? ==> r.step == Decorator.RemoveMessage(s, delegate, call.ack, world)
    ensures r.reply == CompletedFuture <==> call.IsAsync() && r.step.outcome == Ok
  {
    Answer(Decorator.Route(s, TopicOperation(delegate, call), world), call.IsAsync())
  }
}

=== FILE: registry.dfy ===
/**
 * The transaction registry of `MemoryTransactionStore`: the in-flight map,
 * the prepared map and the `doingRecover` flag, with the operations that
 * only move buffers between the maps.
 */
module Registry {
  import opened Values
  import opened Effects
  import opened Buffer

  datatype Store = Store(inflight: map<TxId, Tx>, prepared: map<TxId, Tx>, doingRecover: bool)

  /** A freshly constructed store. */
  const Initial := Store(map[], map[], false)

  /** The new state, the calls made into the outside world and how the call ended. */
  datatype Step = Step(state: Store, trace: seq<Event>, outcome: Outcome)

  /** Where a transaction id stands; `InBoth` is reachable because `getTx` ignores the prepared map. */
  datatype Status = Absent | InFlight | Prepared | InBoth

  function StatusOf(s: Store, id: TxId): Status {
    if id in s.inflight && id in s.prepared then InBoth
    else if id in s.inflight then InFlight
    else if id in s.prepared then Prepared
    else Absent
  }

  /** No id is both in flight and prepared. */
  predicate Disjoint(s: Store) {
    s.inflight.Keys !! s.prepared.Keys
  }

  /** The buffer `getTx` hands back, and the state it leaves behind. */
  datatype Lookup = Lookup(state: Store, tx: Tx)

  /**
   * `getTx`: the in-flight buffer of `id`, installing an empty one when the
   * in-flight map has none; the prepared map is not consulted.
   */
  function GetTx(s: Store, id: TxId): (r: Lookup)
    ensures id in r.state.inflight && r.state.inflight[id] == r.tx
    ensures id in s.inflight ==> r.state == s
    ensures id !in s.inflight ==> r.tx == Empty
    ensures r.state.inflight - {id} == s.inflight - {id}
    ensures r.state.prepared == s.prepared && r.state.doingRecover == s.doingRecover
  {
    if id in s.inflight then Lookup(s, s.inflight[id])
    else Lookup(s.(inflight := s.inflight[id := Empty]), Empty)
  }

  /** `getTx(id).add(c)` for an add-command. */
  function EnlistAdd(s: Store, id: TxId, c: AddCommand): (r: Store)
    ensures id in r.inflight
    ensures r.inflight[id].adds == GetTx(s, id).tx.adds + [c]
    ensures r.inflight[id].removes == GetTx(s, id).tx.removes
    ensures r.inflight - {id} == s.inflight - {id}
    ensures r.prepared == s.prepared && r.doingRecover == s.doingRecover
  {
    var got := GetTx(s, id);
    got.state.(inflight := got.state.inflight[id := AppendAdd(got.tx, c)])
  }

  /** `getTx(id).add(c)` for a remove-command. */
  function EnlistRemove(s: Store, id: TxId, c: RemoveCommand): (r: Store)
    ensures id in r.inflight
    ensures r.inflight[id].removes == GetTx(s, id).tx.removes + [c]
    ensures r.inflight[id].adds == GetTx(s, id).tx.adds
    ensures r.inflight - {id} == s.inflight - {id}
    ensures r.prepared == s.prepared && r.doingRecover == s.doingRecover
  {
    var got := GetTx(s, id);
    got.state.(inflight := got.state.inflight[id := AppendRemove(got.tx, c)])
  }

  /**
   * `prepare`: moves the in-flight buffer of `id`, unchanged, into the
   * prepared map; an id that is not in flight leaves everything as it was.
   */
  function Prepare(s: Store, id: TxId): (r: Store)
    ensures id !in s.inflight ==> r == s
    ensures id in s.inflight ==> id !in r.inflight && id in r.prepared && r.prepared[id] == s.inflight[id]
    ensures r.inflight - {id} == s.inflight - {id}
    ensures r.prepared - {id} == s.prepared - {id}
    ensures r.doingRecover == s.doingRecover
  {
    if id !in s.inflight then s
    else s.(inflight := s.inflight - {id}, prepared := s.prepared[id := s.inflight[id]])
  }

  /** The buffer `commit` takes out of the registry, if any, and the state without it. */
  datatype Taken = Taken(state: Store, tx: Option<Tx>)

  /**
   * The removal at the start of `commit`: from the prepared map when
   * `wasPrepared`, from the in-flight map otherwise; the other map is left
   * alone.
   */
  function Take(s: Store, id: TxId, wasPrepared: bool): (r: Taken)
    ensures wasPrepared ==>
      && id !in r.state.prepared && r.state.prepared - {id} == s.prepared - {id}
      && r.state.inflight == s.inflight
      && (r.tx.Some? <==> id in s.prepared)
      && (r.tx.Some? ==> r.tx.value == s.prepared[id])
    ensures !wasPrepared ==>
      && id !in r.state.inflight && r.state.inflight - {id} == s.inflight - {id}
      && r.state.prepared == s.prepared
      && (r.tx.Some? <==> id in s.inflight)
      && (r.tx.Some? ==> r.tx.value == s.inflight[id])
    ensures r.state.doingRecover == s.doingRecover
  {
    if wasPrepared then
      Taken(s.(prepared := s.prepared - {id}), if id in s.prepared then Some(s.prepared[id]) else None)
    else
      Taken(s.(inflight := s.inflight - {id}), if id in s.inflight then Some(s.inflight[id]) else None)
  }

  /** `rollback`: forgets `id` in both maps, whatever its status, and nothing else. */
  function Rollback(s: Store, id: TxId): (r: Store)
    ensures StatusOf(r, id) == Absent
    ensures r.inflight - {id} == s.inflight - {id}
    ensures r.prepared - {id} == s.prepared - {id}
    ensures r.doingRecover == s.doingRecover
  {
    s.(inflight := s.inflight - {id}, prepared := s.prepared - {id})
  }

  /** `delete`: both maps emptied and the recovery flag cleared. */
  function Delete(s: Store): (r: Store)
    ensures forall id :: StatusOf(r, id) == Absent
    ensures !r.doingRecover
  {
    Initial
  }

  /** `prepare` promotes an in-flight id and leaves every other status as it was. */
  lemma PrepareStatus(s: Store, id: TxId, other: TxId)
    ensures StatusOf(s, id) == InFlight ==> StatusOf(Prepare(s, id), id) == Prepared
    ensures StatusOf(s, id) == Absent ==> StatusOf(Prepare(s, id), id) == Absent
    ensures StatusOf(s, id) == Prepared ==> StatusOf(Prepare(s, id), id) == Prepared
    ensures StatusOf(s, id) == InBoth ==> StatusOf(Prepare(s, id), id) == Prepared
    ensures other != id ==> StatusOf(Prepare(s, id), other) == StatusOf(s, other)
  {
  }

  /** `prepare` keeps the maps disjoint when they were (it cannot make them so). */
  lemma PrepareKeepsDisjoint(s: Store, id: TxId)
    requires Disjoint(s)
    ensures Disjoint(Prepare(s, id))
  {
  }

  /** `rollback` is idempotent and leaves the maps disjoint when they were. */
  lemma RollbackIdempotent(s: Store, id: TxId)
    ensures Rollback(Rollback(s, id), id) == Rollback(s, id)
    ensures Disjoint(s) ==> Disjoint(Rollback(s, id))
  {
  }
}

=== FILE: values.dfy ===
/**
 * Opaque values the transaction store carries without inspecting them:
 * transaction ids, destinations (the underlying message stores) and the
 * contents of messages and acknowledgements. Of a message or an
 * acknowledgement only its optional transaction id is visible here.
 */
module Values {

  type TxId(==, !new)
  type Destination(==)
  type MessageBody(==)
  type AckBody(==)
  type MessageId(==)

  datatype Option<+T> = None | Some(value: T)

  /** A broker message; `txId` is `None` for a non-transactional send. */
  datatype Message = Message(txId: Option<TxId>, body: MessageBody)

  /** A message acknowledgement; `txId` is `None` outside a transaction. */
  datatype MessageAck = MessageAck(txId: Option<TxId>, body: AckBody) {

    /** True when the acknowledgement belongs to a transaction. */
    predicate InTransaction() {
      txId.Some?
    }
  }
}
